=== FILE: README.md ===
# pruls backup pipeline — a Dafny model

pruls runs one unattended backup. It reads its configuration from the
environment and checks that the account-key file and the target directory
exist. It names the archive after the current time, tars and gzips the target
directory into that file, and streams the file to a Google Cloud Storage
object of the same name in 1024-byte chunks. It then re-opens the object to
check that it can be read, and deletes the local file.

This project models the three self-contained pieces of logic in `main.go` and
the order of the stages in `main`:

- `naming.dfy` (module `Naming`): `archiveFilename`. The clock reading is a
  `Timestamp` parameter. The Go layout `2006_01_02_1504_05` is rendered the way
  Go's `time.Format` renders those tokens. The year goes through
  `appendInt(year, 4)`: a minus sign for negative years, then zero padding to
  four digits, with more digits after year 9999. Month, day, hour, minute and
  second go through `appendInt(v, 2)`. The module has the inverse parser
  (`ParseTimestamp`, `ParseArchiveFilename`), so naming is proved injective
  via a round trip. It also has a reference `Join` of segments, which is used
  to state that the name has no empty segment.
- `chunks.dfy` (module `Chunks`): `writeChunks`. The reader is the file's bytes
  plus two oracles indexed by read call. The first says how many bytes that
  call returns, capped at 1024 and at what is left. The second says whether
  the call fails with an error other than EOF. The writer has a failure oracle
  per write call and a flag for a failing `Close`. The sink records every
  successful `Write` argument, the number of `Close` calls, and how many
  writes it had seen when `Close` was called. `ReadPos` and `ReadChunk` are
  the reference for what each read call delivers, so write `k` can be tied to
  read call `k`. `Copied` states what the copy loop leaves behind and
  `Uploaded` what the whole of `writeChunks` leaves behind. As in the Go
  loop, any empty read ends the copy. So a reader that returns 0 bytes before
  the end of the file truncates the upload. The all-bytes guarantee is stated
  for an `Honest` reader, one that returns 0 only at end of file. A buffered
  reader over a regular file behaves this way.
- `config.dfy` (module `Config`): `validateEnvConfig`, with `pathStatBool`
  passed in as a predicate, and the two error texts.
- `pipeline.dfy` (module `Pipeline`): `main`. Each outside effect is an input
  field of `Env`. `log.Fatal` becomes a `Fatal(stage)` or `Invalid(error)`
  exit. `entered` counts how many stages of `RunOrder` the run entered.
  `UploadStage` ties the upload's outcome and the sink to the stages entered.
- `wrappers.dfy` (module `Wrappers`): the shared `Option` type.

Behaviours of the code a reader may not expect, all modelled as the code
has them:

- Validation checks existence only, not readability or writability.
- The archiver's error is overwritten by the following `os.Open` and is never
  checked. An archiving failure therefore aborts the run only if the archive
  file then cannot be opened.
- The copy ends only on an empty read, not on a short read.
- `log.Fatal` exits the process without running deferred calls. So the local
  file is not closed explicitly on fatal paths.
- The deferred `fi.Close` runs after the local file has been removed. If it
  fails, the whole run ends fatally.

## Model

| member | source | states |
|---|---|---|
| `Naming.AppendInt` | main.go:128 | a rendered field is never empty and is zero-padded to at least the field width, with one more character for the minus sign of a negative value |
| `Naming.ParseAppendInt` | main.go:128 | every field rendered for the time layout parses back to its value, whatever its sign or width |
| `Naming.FormatTimestamp` | main.go:119-128 | the timestamp text is at least 18 characters: four or more for the year, two or more for each other field, and the four separators |
| `Naming.ParseFormatTimestamp` | main.go:119-128 | the `2006_01_02_1504_05` rendering of a valid time can be read back field by field, so no information below one second is needed and none is lost |
| `Naming.FixedWidthTimestamp` | main.go:119-128 | for years 0 to 9999 the timestamp is exactly 18 characters, the fixed width of its layout with zero-padded fields |
| `Naming.ArchiveFilename` | main.go:116-140 | the name is longer than its timestamp and always ends with the fixed `_backup.tar.gz` |
| `Naming.ArchiveFilenameRoundTrip` | main.go:116-140 | given the prefix and appName, the clock reading is recovered from the generated name |
| `Naming.ArchiveFilenameInjective` | main.go:116-140 | for the same prefix and appName, two names are equal exactly when the timestamps are equal at second resolution |
| `Naming.ArchiveFilenameIsJoin` | main.go:128-138 | the name is its segments joined by single separators plus `.tar.gz`, with three segments without a prefix and four with one |
| `Naming.ArchiveFilenameNoDoubleSep` | main.go:129-137 | when appName (and a non-empty prefix) are clean segments, the name never holds two separators in a row, so an empty prefix leaves no empty segment |
| `Chunks.ReadLen` | main.go:93-100 | a read delivers at most one 1024-byte buffer and never more than is left, and it delivers nothing exactly at end of file or when the reader grants nothing |
| `Chunks.CopyChunks` | main.go:94-107 | the loop satisfies `Copied`: write `k` is exactly the non-empty `buf[:n]` that read call `k` delivered, so the writes concatenate to the bytes those reads delivered and no earlier call failed; the loop ends normally only when the read after the last write succeeds and delivers nothing, and then (honest reader) the writes are the whole file; a read error or a failed write stops it at exactly the call after the last write, it never reports a Close failure; and with no faulty call it always ends normally |
| `Chunks.FlattenReads` | main.go:94-106 | writes that pass on the reads one for one concatenate to exactly the bytes those reads delivered, in file order |
| `Chunks.FullReadsChunks` | main.go:93-106 | with a reader that always fills the buffer, every write but the last is a full 1024-byte buffer, because a short read means the end of the file |
| `Chunks.BufferCount` | main.go:93-106 | when every chunk but the last is a full 1024-byte buffer, the number of chunks is the content length divided by 1024, rounded up |
| `Chunks.WriteChunks` | main.go:90-112 | the run satisfies `Uploaded`: the writes satisfy `Copied`, with a failed Close counted as a completed copy, so write `k` is read call `k`'s bytes; Close is called at most once and only after every write; the copy completes exactly when Close was called and succeeded and the read after the last write did not fail, and it then returned nothing and (honest reader) every file byte was written; each abort names the failing read, write or Close, which is the call right after the last write; with full reads the number of writes is the file size divided by 1024, rounded up; a fault-free reader and writer always complete |
| `Config.ValidateEnvConfig` | main.go:158-170 | no error exactly when both paths exist; a reported path is really missing; a missing key path is reported even when the target dir is also missing, and the target dir is reported only when the key exists |
| `Config.Message` | main.go:160-166 | each error text ends with the path that failed |
| `Config.MessageInjective` | main.go:160-166 | two error texts are equal exactly when the errors are equal, so the failing check and its path can be read from the text |
| `Pipeline.Prepare` | main.go:36-55 | the stages before the upload run in order and stop at the first failure: configuration loading, then validation (reporting exactly the validator's error), then the bucket client, then opening the archive; every stage before the one that stopped the run succeeded and that one failed; naming and archiving never stop the run; it is ready exactly when every one of these succeeds, and then the name is the one generated from the clock reading, prefix and appName |
| `Pipeline.Conclude` | main.go:56-76 | after the upload: verification is entered exactly when the upload completed, removal exactly when verification also succeeded; after removal the run finishes exactly when the local file closes, whatever the removal's outcome, and a finished run reports the name and the removal outcome |
| `Pipeline.Backup` | main.go:35-66 | stages run in order and the run stops at the first fatal one: every stage before the last one entered succeeded, and a fatal exit names a stage that failed; a failed configuration load, validation, client creation or archive open stops the run at exactly that stage; naming, archiving and local removal never abort it; the run is invalid exactly when the decoded configuration fails validation; the upload is entered exactly when configuration, validation, client and open all succeed, and nothing is written before it; the run satisfies `UploadStage`: the upload's outcome is returned exactly when the upload ran, the sink then satisfies `Uploaded` for the archive reader and bucket writer, and verification runs exactly when that upload completed: every read succeeded, the final empty one included, and the writer was closed once without error, so a failed read, write or Close makes the run fatal before verification; removal runs only after verification succeeded, and after removal the exit depends only on closing the local file; a successful run reports the generated name and the removal outcome, and a run where every collaborator succeeds always finishes |

## Left out

- `bucketObject`, `storage.NewClient`, `obj.NewWriter` and `obj.NewReader`
  (main.go:145-155, main.go:81-87) are Google Cloud Storage client calls.
  Their success is an input, and the writer is the abstract `Chunks.Writer`.
- `verifyFileInBucket` ignores the reader's `Close` error. It is modelled only
  as the `verifyOk` input that decides whether the run continues.
- `envconfig.Process` and the struct-tag defaults (main.go:27-37) are library
  reflection. Decoding is an `Option<Specification>` input. The default key
  path and the variable prefix appear only as constants.
- `archiver.TarGz.Make` (main.go:49) is an opaque library call. The archive's
  bytes are the `archive` reader's data, and the archiver's verdict is an
  input that the run never consults.
- `os.Stat`, `os.Open`, `os.Remove` and `time.Now` are replaced by an
  existence predicate, boolean outcomes and a `Timestamp` parameter.
- `Naming.ArchiveFilenameInjective`: `Timestamp` is the local wall-clock
  reading that `time.Now()` gives and `Format` renders, not an instant. The
  names are injective in the reading, so two runs whose readings coincide get
  the same name: a daylight-saving fall-back (01:30 EDT and 01:30 EST on
  2024-11-03 both read `2024_11_03_0130_00`) or a clock stepped back. Time
  zones and clock adjustments are not modelled.
- Log output is not modelled, except for the two validation error texts.
  Process exit codes are not modelled either: an exit is `Done`, `Invalid` or
  `Fatal`.
- `Chunks.WriteChunks` and `Chunks.CopyChunks`: the failed write itself records nothing in the sink.
  What a storage writer buffers from a failing `Write` is not modelled.
- `Naming.ArchiveFilenameNoDoubleSep`: requires appName (and any non-empty
  prefix) to be clean segments. The code does not check them, so an empty or
  underscore-edged appName does produce a doubled separator.

=== FILE: chunks.dfy ===
/** The chunked copy from the local archive to the bucket writer
    (writeChunks): read up to one buffer's worth, write exactly the bytes read,
    stop at the first empty read, then close the writer.

    The file reader and the bucket writer are abstract. A reader is the file's
    content plus two oracles indexed by read call: how many bytes that call is
    willing to return, and whether it fails with an error other than
    end-of-file. A writer is two failure oracles: one per write call, one for
    the final close. */
module Chunks {

  type byte = b: int | 0 <= b < 256

  /** Size of the read buffer, and so the largest single write. */
  const BufferSize: nat := 1024

  datatype Reader = Reader(data: seq<byte>, grant: nat -> nat, readFails: nat -> bool)

  datatype Writer = Writer(writeFails: nat -> bool, closeFails: bool)

  /** What the bucket object has seen: the argument of every successful Write,
      in order, how many times Close was called, and how many writes it had
      seen when Close was called (0 if it never was). */
  datatype Sink = Sink(writes: seq<seq<byte>>, closes: nat, closedAfter: nat)

  datatype UploadError =
    | ReadFailed(readCall: nat)
    | WriteFailed(writeCall: nat)
    | CloseFailed

  datatype Outcome = Completed | Aborted(error: UploadError)

  function Min(a: nat, b: nat): nat {
    if a < b then a else b
  }

  /** Number of bytes read call `k` delivers when `pos` bytes were delivered
      before it: what the reader grants, capped by the buffer and by what is
      left. It is 0 exactly at end of file, or when the reader grants nothing. */
  function ReadLen(rd: Reader, k: nat, pos: nat): (n: nat)
    requires pos <= |rd.data|
    ensures n <= BufferSize && pos + n <= |rd.data|
    ensures n == 0 <==> pos == |rd.data| || rd.grant(k) == 0
  {
    Min(Min(rd.grant(k), BufferSize), |rd.data| - pos)
  }

  /** Bytes delivered before read call `k`: every earlier call returned what
      ReadLen says it returns. */
  function ReadPos(rd: Reader, k: nat): (pos: nat)
    ensures pos <= |rd.data|
    decreases k
  {
    if k == 0 then 0
    else
      var before := ReadPos(rd, k - 1);
      before + ReadLen(rd, k - 1, before)
  }

  /** The bytes read call `k` leaves in the buffer, `buf[:n]`. */
  function ReadChunk(rd: Reader, k: nat): seq<byte> {
    var pos := ReadPos(rd, k);
    rd.data[pos..pos + ReadLen(rd, k, pos)]
  }

  /** Write `k` passed on exactly what read call `k` delivered. */
  predicate FollowsReads(rd: Reader, writes: seq<seq<byte>>) {
    forall k :: 0 <= k < |writes| ==> writes[k] == ReadChunk(rd, k)
  }

  /** A reader that only reports an empty read at end of file, as an
      operating-system file behind a buffered reader does. */
  ghost predicate Honest(rd: Reader) {
    forall k :: rd.grant(k) > 0
  }

  /** A reader that always fills the whole buffer while data remains, as a
      buffered reader over a regular file does. */
  ghost predicate FullReads(rd: Reader) {
    forall k :: rd.grant(k) >= BufferSize
  }

  /** Number of buffers needed for `n` bytes. */
  function Buffers(n: nat): nat {
    (n + BufferSize - 1) / BufferSize
  }

  /** All written chunks, concatenated in order. */
  function Flatten(chunks: seq<seq<byte>>): seq<byte>
    decreases |chunks|
  {
    if |chunks| == 0 then [] else Flatten(chunks[..|chunks| - 1]) + chunks[|chunks| - 1]
  }

  /** Every chunk is non-empty and fits in one buffer. */
  predicate ChunksBounded(chunks: seq<seq<byte>>) {
    forall i :: 0 <= i < |chunks| ==> 0 < |chunks[i]| <= BufferSize
  }

  /** The first `n` chunks are full buffers. */
  predicate FullBefore(chunks: seq<seq<byte>>, n: nat)
    requires n <= |chunks|
  {
    forall i :: 0 <= i < n ==> |chunks[i]| == BufferSize
  }


  /** `w` full buffers followed by a non-empty partial or full one need
      `w + 1` buffers. */
  lemma BuffersNext(w: nat, n: nat)
    requires 0 < n <= BufferSize
    ensures Buffers(w * BufferSize + n) == w + 1
  {
    assert w * BufferSize + n + BufferSize - 1 == (w + 1) * BufferSize + (n - 1);
  }

  /** Full buffers only: the content is exactly that many buffers long. */
  lemma {:induction false} FullLength(chunks: seq<seq<byte>>)
    requires FullBefore(chunks, |chunks|)
    ensures |Flatten(chunks)| == |chunks| * BufferSize
    decreases |chunks|
  {
    if |chunks| > 0 {
      var init := chunks[..|chunks| - 1];
      assert FullBefore(init, |init|) by {
        forall i | 0 <= i < |init|
          ensures |init[i]| == BufferSize
        {
          assert init[i] == chunks[i];
        }
      }
      FullLength(init);
    }
  }

  /** When every chunk but the last is a full buffer, the number of chunks is
      the content length divided by the buffer size, rounded up. */
  lemma {:induction false} BufferCount(chunks: seq<seq<byte>>)
    requires ChunksBounded(chunks)
    requires 0 < |chunks| ==> FullBefore(chunks, |chunks| - 1)
    ensures |chunks| == Buffers(|Flatten(chunks)|)
  {
    if |chunks| > 0 {
      var init := chunks[..|chunks| - 1];
      var last := chunks[|chunks| - 1];
      assert FullBefore(init, |init|) by {
        forall i | 0 <= i < |init|
          ensures |init[i]| == BufferSize
        {
          assert init[i] == chunks[i];
        }
      }
      FullLength(init);
      assert 0 < |last| <= BufferSize;
      BuffersNext(|init|, |last|);
    }
  }


  /** Writes that follow the reads concatenate to everything those reads
      delivered. */
  lemma {:induction false} FlattenReads(rd: Reader, writes: seq<seq<byte>>)
    requires FollowsReads(rd, writes)
    ensures Flatten(writes) == rd.data[..ReadPos(rd, |writes|)]
    decreases |writes|
  {
    if |writes| > 0 {
      var k := |writes| - 1;
      var init := writes[..k];
      assert FollowsReads(rd, init) by {
        forall i | 0 <= i < |init|
          ensures init[i] == ReadChunk(rd, i)
        {
          assert init[i] == writes[i];
        }
      }
      FlattenReads(rd, init);
      var before := ReadPos(rd, k);
      assert ReadPos(rd, k + 1) == before + ReadLen(rd, k, before);
      assert rd.data[..ReadPos(rd, k + 1)] == rd.data[..before] + writes[k];
    }
  }

  lemma FollowsAppend(rd: Reader, writes: seq<seq<byte>>)
    requires FollowsReads(rd, writes)
    ensures FollowsReads(rd, writes + [ReadChunk(rd, |writes|)])
  {
    var next := writes + [ReadChunk(rd, |writes|)];
    forall i | 0 <= i < |next|
      ensures next[i] == ReadChunk(rd, i)
    {
      if i < |writes| {
        assert next[i] == writes[i];
      }
    }
  }

  /** What the copy loop of writeChunks leaves behind, in terms of the
      reader's and the writer's behaviour:
      - write `k` is exactly the non-empty `buf[:n]` of read call `k`, so the
        writes are the file's bytes in order, with no read or write call
        before the last write failing;
      - the loop ends normally only when the read after the last write
        succeeded and returned no bytes, and then for an honest reader every
        byte of the file was written;
      - each abort names the failing call, which is the one right after the
        last write: the read call, or the write call (its read delivered
        bytes). */
  ghost predicate Copied(rd: Reader, wr: Writer, writes: seq<seq<byte>>, out: Outcome) {
    var n := |writes|;
    && FollowsReads(rd, writes)
    && ChunksBounded(writes)
    && Flatten(writes) == rd.data[..ReadPos(rd, n)]
    && (forall k :: 0 <= k < n ==> !rd.readFails(k) && !wr.writeFails(k))
    && (out.Completed? ==> !rd.readFails(n) && ReadLen(rd, n, ReadPos(rd, n)) == 0)
    && (out.Completed? && Honest(rd) ==> Flatten(writes) == rd.data)
    && (out.Aborted? && out.error.ReadFailed? ==> out.error.readCall == n && rd.readFails(n))
    && (out.Aborted? && out.error.WriteFailed? ==>
          && out.error.writeCall == n && wr.writeFails(n)
          && !rd.readFails(n) && 0 < ReadLen(rd, n, ReadPos(rd, n)))
  }

  /** What one run of writeChunks leaves behind: the copy loop's writes, where
      a failed Close comes after a copy that completed; Close is called at
      most once, only after every write and only when the copy completed; and
      the run completes exactly when Close was called and succeeded and the
      read after the last write did not fail. */
  ghost predicate Uploaded(rd: Reader, wr: Writer, sink: Sink, out: Outcome) {
    var n := |sink.writes|;
    && Copied(rd, wr, sink.writes, if out == Aborted(CloseFailed) then Completed else out)
    && sink.closes <= 1
    && (sink.closes == 1 ==> sink.closedAfter == n)
    && (out.Completed? <==> sink.closes == 1 && !rd.readFails(n) && !wr.closeFails)
    && (out == Aborted(CloseFailed) ==> sink.closes == 1 && wr.closeFails)
    && (out.Aborted? && !out.error.CloseFailed? ==> sink.closes == 0)
  }

  /** With full reads, every write but the last is a full buffer: a read
      that returns less than a buffer has reached the end of the file, so the
      next read returns nothing and there is no next write. */
  lemma {:induction false} FullReadsChunks(rd: Reader, writes: seq<seq<byte>>)
    requires FullReads(rd) && FollowsReads(rd, writes) && ChunksBounded(writes)
    ensures 0 < |writes| ==> FullBefore(writes, |writes| - 1)
  {
    forall i | 0 <= i < |writes| - 1
      ensures |writes[i]| == BufferSize
    {
      var pos := ReadPos(rd, i);
      var n := ReadLen(rd, i, pos);
      assert writes[i] == ReadChunk(rd, i);
      // the next write is non-empty, so this read stopped short of the end
      assert writes[i + 1] == ReadChunk(rd, i + 1);
      assert ReadPos(rd, i + 1) == pos + n < |rd.data|;
      assert rd.grant(i) >= BufferSize;
    }
  }

  /** The copy loop of writeChunks, up to but not including Close: read up
      to one buffer, stop at the first empty read, otherwise write exactly the
      bytes read. It either runs to an empty read (`Completed`) or stops at the
      first read error or failed write, recorded with the call's index. */
  method CopyChunks(rd: Reader, wr: Writer) returns (writes: seq<seq<byte>>, out: Outcome)
    ensures Copied(rd, wr, writes, out)
    ensures out != Aborted(CloseFailed)
    ensures (forall k :: !rd.readFails(k)) && (forall k :: !wr.writeFails(k)) ==> out.Completed?
  {
    writes := [];
    var pos: nat := 0;
    while true
      invariant pos == ReadPos(rd, |writes|)
      invariant FollowsReads(rd, writes)
      invariant ChunksBounded(writes)
      invariant forall k :: 0 <= k < |writes| ==> !rd.readFails(k) && !wr.writeFails(k)
      decreases |rd.data| - pos
    {
      var k := |writes|;
      // read call k
      var n := ReadLen(rd, k, pos);
      if rd.readFails(k) {
        FlattenReads(rd, writes);
        return writes, Aborted(ReadFailed(k));
      }
      if n == 0 {
        break;
      }
      // write call k
      var chunk := rd.data[pos..pos + n];
      if wr.writeFails(k) {
        FlattenReads(rd, writes);
        return writes, Aborted(WriteFailed(k));
      }
      assert chunk == ReadChunk(rd, k);
      FollowsAppend(rd, writes);
      writes := writes + [chunk];
      pos := pos + n;
    }
    FlattenReads(rd, writes);
    return writes, Completed;
  }

  /** writeChunks: the copy loop, then Close. Everything one run leaves
      behind is stated by Uploaded; on top of that, with full reads the number
      of writes is the file size in buffers, rounded up, and a reader and
      writer that never fail always complete. */
  method WriteChunks(rd: Reader, wr: Writer) returns (sink: Sink, out: Outcome)
    ensures Uploaded(rd, wr, sink, out)
    ensures FullReads(rd) && 0 < |sink.writes| ==> FullBefore(sink.writes, |sink.writes| - 1)
    ensures out.Completed? && FullReads(rd) ==> |sink.writes| == Buffers(|rd.data|)
    ensures (forall k :: !rd.readFails(k)) && (forall k :: !wr.writeFails(k)) && !wr.closeFails ==> out.Completed?
  {
    var writes, copied := CopyChunks(rd, wr);
    if FullReads(rd) {
      FullReadsChunks(rd, writes);
    }
    if copied.Aborted? {
      return Sink(writes, 0, 0), copied;
    }
    // then close the writer
    if wr.closeFails {
      return Sink(writes, 1, |writes|), Aborted(CloseFailed);
    }
    if FullReads(rd) {
      FullReadsChunks(rd, writes);
      BufferCount(writes);
    }
    return Sink(writes, 1, |writes|), Completed;
  }
}

=== FILE: config.dfy ===
/** Start-up validation of the environment configuration (validateEnvConfig).

    Only existence is checked, in a fixed order: the account-key file first,
    then the backup target directory; the first missing path is the one
    reported. Whether a path exists is a predicate passed in, standing for
    the `os.Stat` call of pathStatBool. */
module Config {

  import opened Wrappers

  /** Prefix of the environment variables the configuration is read from.
      Decoding is an input of the model, so this constant is documentation
      only. */
  const EnvConfigPrefix: string := "pruls"

  /** Where the account key is looked for when none is configured. The
      default is applied while decoding, which is an input of the model, so
      this constant is documentation only. */
  const DefaultAccountKeyAbsPath: string := "/etc/secret-volume/auth.json"

  /** The configuration record the environment is decoded into. */
  datatype Specification = Specification(
    accountKeyAbsPath: string,
    appName: string,
    bucketName: string,
    filePrefix: string,
    targetDirAbsPath: string)

  datatype ConfigError =
    | AccountKeyNotFound(path: string)
    | TargetDirNotFound(path: string)

  // Each text is written as short joined pieces: the verifier looks inside a
  // short literal character by character, and MessageInjective needs that.
  const AccountKeyText: string := "google account key " + "(e.g. .json) must exist, not found " + "at: "
  const TargetDirText: string := "backup target dir " + "must exist, not found at: "

  /** The error text reported for `e`: a fixed explanation followed by the path. */
  function Message(e: ConfigError): (msg: string)
    ensures |msg| >= |e.path| && msg[|msg| - |e.path|..] == e.path
  {
    match e
    case AccountKeyNotFound(p) => AccountKeyText + p
    case TargetDirNotFound(p) => TargetDirText + p
  }

  /** validateEnvConfig: no error exactly when both paths exist; otherwise
      the first check in order that fails decides the error. */
  function ValidateEnvConfig(s: Specification, pathExists: string -> bool): (err: Option<ConfigError>)
    ensures err.None? <==> pathExists(s.accountKeyAbsPath) && pathExists(s.targetDirAbsPath)
    ensures err.Some? ==> !pathExists(err.value.path)
    ensures !pathExists(s.accountKeyAbsPath) ==> err == Some(AccountKeyNotFound(s.accountKeyAbsPath))
    ensures pathExists(s.accountKeyAbsPath) && !pathExists(s.targetDirAbsPath) ==>
              err == Some(TargetDirNotFound(s.targetDirAbsPath))
  {
    if !pathExists(s.accountKeyAbsPath) then Some(AccountKeyNotFound(s.accountKeyAbsPath))
    else if !pathExists(s.targetDirAbsPath) then Some(TargetDirNotFound(s.targetDirAbsPath))
    else None
  }

  /** The message determines the error: its kind and its path can both be
      read back from the text alone. */
  lemma {:induction false} MessageInjective(e1: ConfigError, e2: ConfigError)
    ensures Message(e1) == Message(e2) <==> e1 == e2
  {
    assert AccountKeyText[0] == 'g' && TargetDirText[0] == 'b';
    if Message(e1) == Message(e2) {
      var m := Message(e1);
      // the first character tells the two kinds apart
      assert m[0] == Message(e2)[0];
      assert e1.AccountKeyNotFound? == e2.AccountKeyNotFound?;
      var k := if e1.AccountKeyNotFound? then |AccountKeyText| else |TargetDirText|;
      assert e1.path == m[k..];
      assert e2.path == Message(e2)[k..];
    }
  }
}

=== FILE: naming.dfy ===
/** Archive naming: the timestamped file (and object) name under which one
    backup run stores its tarball.

    The name is `TS_[prefix_]appName_backup.tar.gz`, where TS is the wall-clock
    time rendered with the Go layout `2006_01_02_1504_05`. The clock reading is
    a parameter here instead of a call to the system clock. */
module Naming {

  import opened Wrappers

  const FilenameSep: string := "_"
  const FilenameSuffix: string := "backup"
  const FileExtension: string := ".tar.gz"

  /** The fixed ending of every name, `_backup.tar.gz`. */
  const BackupEnding: string := FilenameSep + FilenameSuffix + FileExtension

  /** A wall-clock reading at second resolution, as Go's `time.Time` exposes
      it through `Date()` and `Clock()`. `time.Now()` is read in the local time
      zone, so this is the local reading, not an instant: two instants with
      the same local reading (a daylight-saving fall-back, a clock stepped
      back) are the same Timestamp. */
  datatype Timestamp = Timestamp(year: int, month: int, day: int, hour: int, minute: int, second: int)
  {
    /** The ranges Go guarantees for a normalised time value. */
    predicate Valid() {
      && 1 <= month <= 12
      && 1 <= day <= 31
      && 0 <= hour < 24
      && 0 <= minute < 60
      && 0 <= second < 60
    }
  }

  // ---------------------------------------------------------------------------
  // Decimal rendering (Go's time.appendInt) and its inverse

  predicate IsDigit(c: char) {
    '0' <= c <= '9'
  }

  predicate AllDigits(s: string) {
    forall i :: 0 <= i < |s| ==> IsDigit(s[i])
  }

  /** True when `s` holds no separator character at all. */
  predicate NoSep(s: string) {
    forall i :: 0 <= i < |s| ==> s[i] != '_'
  }

  function DigitChar(d: nat): (c: char)
    requires d < 10
    ensures IsDigit(c)
  {
    (('0' as int) + d) as char
  }

  function DigitValue(c: char): (d: nat)
    requires IsDigit(c)
    ensures d < 10
  {
    (c as int) - ('0' as int)
  }

  /** The decimal digits of `n`, most significant first, with no leading zero. */
  function Digits(n: nat): (s: string)
    ensures 0 < |s|
    ensures n < 10 ==> |s| == 1
    ensures 10 <= n < 100 ==> |s| == 2
    decreases n
  {
    if n < 10 then [DigitChar(n)] else Digits(n / 10) + [DigitChar(n % 10)]
  }

  /** The number a digit string denotes (leading zeros allowed). */
  function Value(s: string): nat
    requires AllDigits(s)
    decreases |s|
  {
    if s == [] then 0 else Value(s[..|s| - 1]) * 10 + DigitValue(s[|s| - 1])
  }

  lemma {:induction false} DigitsAreDigits(n: nat)
    ensures AllDigits(Digits(n))
    decreases n
  {
    if n >= 10 {
      DigitsAreDigits(n / 10);
      var init, last := Digits(n / 10), DigitChar(n % 10);
      assert Digits(n) == init + [last];
      assert forall i :: 0 <= i < |init| ==> Digits(n)[i] == init[i];
    }
  }

  function Zeros(k: nat): (s: string)
    ensures |s| == k
  {
    if k == 0 then [] else Zeros(k - 1) + ['0']
  }

  lemma {:induction false} ZerosAreZeros(k: nat)
    ensures forall i :: 0 <= i < k ==> Zeros(k)[i] == '0'
  {
    if k > 0 {
      ZerosAreZeros(k - 1);
      assert forall i :: 0 <= i < k - 1 ==> Zeros(k)[i] == Zeros(k - 1)[i];
    }
  }

  /** Left-pads `s` with '0' up to `width` characters; a longer `s` is kept whole. */
  function Pad(s: string, width: nat): (r: string)
    ensures |r| == if |s| < width then width else |s|
  {
    if |s| < width then Zeros(width - |s|) + s else s
  }

  /** Padding only adds zeros in front: `s` is the tail of the result. */
  lemma PadShape(s: string, width: nat)
    ensures Pad(s, width)[|Pad(s, width)| - |s|..] == s
    ensures forall i :: 0 <= i < |Pad(s, width)| - |s| ==> Pad(s, width)[i] == '0'
    ensures AllDigits(s) ==> AllDigits(Pad(s, width))
  {
    if |s| < width {
      ZerosAreZeros(width - |s|);
    }
  }

  function Abs(x: int): nat {
    if x < 0 then -x else x
  }

  /** Go's `appendInt(b, x, width)` from package time: a minus sign for a
      negative value, then the magnitude zero-padded to at least `width` digits. */
  function AppendInt(x: int, width: nat): (r: string)
    ensures 0 < |r|
    ensures x < 0 ==> |r| >= width + 1
    ensures 0 <= x ==> |r| >= width
  {
    (if x < 0 then "-" else "") + Pad(Digits(Abs(x)), width)
  }

  /** Only digits after an optional minus sign; in particular no separator. */
  lemma AppendIntChars(x: int, width: nat)
    ensures (AppendInt(x, width)[0] == '-') <==> x < 0
    ensures AllDigits(if x < 0 then AppendInt(x, width)[1..] else AppendInt(x, width))
    ensures NoSep(AppendInt(x, width))
  {
    var p := Pad(Digits(Abs(x)), width);
    DigitsAreDigits(Abs(x));
    PadShape(Digits(Abs(x)), width);
    var r := AppendInt(x, width);
    if x < 0 {
      assert r == "-" + p;
      assert r[1..] == p;
    } else {
      assert r == p;
    }
    assert AllDigits(p);
  }

  /** True when `s` has the shape AppendInt produces: an optional minus sign
      followed by at least one digit. */
  predicate IntText(s: string) {
    if 0 < |s| && s[0] == '-' then 1 < |s| && AllDigits(s[1..]) else 0 < |s| && AllDigits(s)
  }

  function ParseInt(s: string): int
    requires IntText(s)
  {
    if s[0] == '-' then 0 - Value(s[1..]) else Value(s)
  }

  lemma {:induction false} ValueOfLastDigit(s: string, c: char)
    requires AllDigits(s) && IsDigit(c)
    ensures AllDigits(s + [c])
    ensures Value(s + [c]) == Value(s) * 10 + DigitValue(c)
  {
    assert (s + [c])[..|s|] == s;
  }

  lemma {:induction false} ValueOfDigits(n: nat)
    ensures AllDigits(Digits(n))
    ensures Value(Digits(n)) == n
    decreases n
  {
    DigitsAreDigits(n);
    if n < 10 {
      assert Digits(n)[..0] == [];
    } else {
      ValueOfDigits(n / 10);
      ValueOfLastDigit(Digits(n / 10), DigitChar(n % 10));
    }
  }

  lemma {:induction false} ValueIgnoresLeadingZeros(k: nat, s: string)
    requires AllDigits(s)
    ensures AllDigits(Zeros(k) + s)
    ensures Value(Zeros(k) + s) == Value(s)
    decreases |s|, k
  {
    ZerosAreZeros(k);
    if s == [] {
      assert Zeros(k) + s == Zeros(k);
      if k > 0 {
        ValueIgnoresLeadingZeros(k - 1, s);
        assert Zeros(k - 1) + s == Zeros(k - 1);
        ValueOfLastDigit(Zeros(k - 1), '0');
      }
    } else {
      var init := s[..|s| - 1];
      var last := s[|s| - 1];
      assert s == init + [last];
      ValueIgnoresLeadingZeros(k, init);
      assert Zeros(k) + s == (Zeros(k) + init) + [last];
      ValueOfLastDigit(Zeros(k) + init, last);
      ValueOfLastDigit(init, last);
    }
  }

  /** AppendInt loses nothing: ParseInt recovers the rendered value, whatever
      the width. */
  lemma ParseAppendInt(x: int, width: nat)
    ensures IntText(AppendInt(x, width))
    ensures ParseInt(AppendInt(x, width)) == x
  {
    var d := Digits(Abs(x));
    var p := Pad(d, width);
    ValueOfDigits(Abs(x));
    if |d| < width {
      ValueIgnoresLeadingZeros(width - |d|, d);
    }
    assert Value(p) == Abs(x);
    var r := AppendInt(x, width);
    if x < 0 {
      assert r == "-" + p;
      assert r[1..] == p;
    } else {
      assert r == p;
    }
  }

  // ---------------------------------------------------------------------------
  // The timestamp part

  /** `t` formatted with the layout `2006_01_02_1504_05`: four-digit year,
      then month, day, hour+minute and second, each field two digits wide. */
  function FormatTimestamp(t: Timestamp): (s: string)
    ensures ClockWidth + 4 <= |s|
  {
    AppendInt(t.year, 4) + FilenameSep + AppendInt(t.month, 2) + FilenameSep
      + AppendInt(t.day, 2) + FilenameSep + (AppendInt(t.hour, 2) + AppendInt(t.minute, 2))
      + FilenameSep + AppendInt(t.second, 2)
  }

  /** The length of the fixed-width tail `_MM_DD_HHMM_SS`. */
  const ClockWidth: nat := 14

  /** Reads a timestamp back from the text FormatTimestamp produces, or None
      when `s` does not have that shape. */
  function ParseTimestamp(s: string): Option<Timestamp> {
    if |s| < ClockWidth then None
    else
      var k := |s| - ClockWidth;
      var y, mo, d, h, mi, sec := s[..k], s[k + 1..k + 3], s[k + 4..k + 6], s[k + 7..k + 9], s[k + 9..k + 11], s[k + 12..];
      if IntText(y) && AllDigits(mo) && AllDigits(d) && AllDigits(h) && AllDigits(mi) && AllDigits(sec)
         && s[k] == '_' && s[k + 3] == '_' && s[k + 6] == '_' && s[k + 11] == '_'
      then Some(Timestamp(ParseInt(y), Value(mo), Value(d), Value(h), Value(mi), Value(sec)))
      else None
  }

  lemma TwoDigitField(v: int)
    requires 0 <= v < 100
    ensures |AppendInt(v, 2)| == 2
    ensures AllDigits(AppendInt(v, 2))
    ensures Value(AppendInt(v, 2)) == v
  {
    ParseAppendInt(v, 2);
    AppendIntChars(v, 2);
  }

  /** Slicing the layout back apart: each field is found where the layout put it. */
  lemma {:induction false} ParseTimestampParts(y: string, mo: string, d: string, h: string, mi: string, sec: string)
    requires IntText(y)
    requires |mo| == 2 && |d| == 2 && |h| == 2 && |mi| == 2 && |sec| == 2
    requires AllDigits(mo) && AllDigits(d) && AllDigits(h) && AllDigits(mi) && AllDigits(sec)
    ensures ParseTimestamp(y + FilenameSep + mo + FilenameSep + d + FilenameSep + (h + mi) + FilenameSep + sec)
         == Some(Timestamp(ParseInt(y), Value(mo), Value(d), Value(h), Value(mi), Value(sec)))
  {
    var s := y + FilenameSep + mo + FilenameSep + d + FilenameSep + (h + mi) + FilenameSep + sec;
    var k := |y|;
    assert |s| == k + ClockWidth;
    assert s[..k] == y;
    assert s[k + 1..k + 3] == mo;
    assert s[k + 4..k + 6] == d;
    assert s[k + 7..k + 9] == h;
    assert s[k + 9..k + 11] == mi;
    assert s[k + 12..] == sec;
  }

  /** Every field of a valid timestamp survives formatting. */
  lemma {:induction false} ParseFormatTimestamp(t: Timestamp)
    requires t.Valid()
    ensures ParseTimestamp(FormatTimestamp(t)) == Some(t)
  {
    TwoDigitField(t.month);
    TwoDigitField(t.day);
    TwoDigitField(t.hour);
    TwoDigitField(t.minute);
    TwoDigitField(t.second);
    ParseAppendInt(t.year, 4);
    ParseTimestampParts(AppendInt(t.year, 4), AppendInt(t.month, 2), AppendInt(t.day, 2),
                        AppendInt(t.hour, 2), AppendInt(t.minute, 2), AppendInt(t.second, 2));
  }

  /** For the years 0 through 9999 the timestamp has the fixed width of its
      layout, 18 characters. */
  lemma FixedWidthTimestamp(t: Timestamp)
    requires t.Valid() && 0 <= t.year <= 9999
    ensures |FormatTimestamp(t)| == 18
  {
    TwoDigitField(t.month);
    TwoDigitField(t.day);
    TwoDigitField(t.hour);
    TwoDigitField(t.minute);
    TwoDigitField(t.second);
    var d := Digits(t.year);
    if t.year >= 10 {
      assert |Digits(t.year / 10)| <= 3 by { DigitsBound(t.year / 10, 3); }
    }
    DigitsBound(t.year, 4);
  }

  function Pow10(k: nat): nat {
    if k == 0 then 1 else 10 * Pow10(k - 1)
  }

  lemma {:induction false} DigitsBound(n: nat, k: nat)
    requires 0 < k && n < Pow10(k)
    ensures |Digits(n)| <= k
    decreases k
  {
    if n >= 10 {
      assert k > 1;
      DigitsBound(n / 10, k - 1);
    }
  }

  // ---------------------------------------------------------------------------
  // The archive name

  /** The `prefix_` segment, present only for a non-empty prefix. */
  function PrefixSegment(filePrefix: string): string {
    if filePrefix != "" then filePrefix + FilenameSep else ""
  }

  /** Everything after the timestamp: determined by prefix and appName alone. */
  function NameTail(filePrefix: string, appName: string): string {
    FilenameSep + PrefixSegment(filePrefix) + appName + BackupEnding
  }

  predicate EndsWith(s: string, suffix: string) {
    |suffix| <= |s| && s[|s| - |suffix|..] == suffix
  }

  /** archiveFilename, with the clock reading `now` passed in. */
  function ArchiveFilename(now: Timestamp, filePrefix: string, appName: string): (name: string)
    ensures |FormatTimestamp(now)| < |name|
    ensures EndsWith(name, BackupEnding)
  {
    FormatTimestamp(now) + NameTail(filePrefix, appName)
  }

  /** Recovers the timestamp from a name built for `filePrefix` and `appName`,
      or None when the name was not built for them. */
  function ParseArchiveFilename(name: string, filePrefix: string, appName: string): Option<Timestamp> {
    var tail := NameTail(filePrefix, appName);
    if |name| >= |tail| && name[|name| - |tail|..] == tail
    then ParseTimestamp(name[..|name| - |tail|])
    else None
  }

  /** The clock reading can be read back from the name. */
  lemma {:induction false} ArchiveFilenameRoundTrip(now: Timestamp, filePrefix: string, appName: string)
    requires now.Valid()
    ensures ParseArchiveFilename(ArchiveFilename(now, filePrefix, appName), filePrefix, appName) == Some(now)
  {
    var ts := FormatTimestamp(now);
    var tail := NameTail(filePrefix, appName);
    var name := ArchiveFilename(now, filePrefix, appName);
    assert name[..|name| - |tail|] == ts;
    assert name[|name| - |tail|..] == tail;
    ParseFormatTimestamp(now);
  }

  /** Two runs whose clock readings differ at second resolution never share an
      archive name for the same prefix and appName. */
  lemma ArchiveFilenameInjective(t1: Timestamp, t2: Timestamp, filePrefix: string, appName: string)
    requires t1.Valid() && t2.Valid()
    ensures ArchiveFilename(t1, filePrefix, appName) == ArchiveFilename(t2, filePrefix, appName) <==> t1 == t2
  {
    if ArchiveFilename(t1, filePrefix, appName) == ArchiveFilename(t2, filePrefix, appName) {
      ArchiveFilenameRoundTrip(t1, filePrefix, appName);
      ArchiveFilenameRoundTrip(t2, filePrefix, appName);
    }
  }

  // The name after a timestamp text `ts`, one fact at a time.

  lemma NameStart(ts: string, filePrefix: string, appName: string)
    ensures |ts| < |ts + NameTail(filePrefix, appName)|
    ensures (ts + NameTail(filePrefix, appName))[..|ts| + 1] == ts + FilenameSep
  {
  }

  lemma NameEnding(ts: string, filePrefix: string, appName: string)
    ensures EndsWith(ts + NameTail(filePrefix, appName), BackupEnding)
  {
  }

  lemma NameWithoutPrefix(ts: string, appName: string)
    ensures ts + NameTail("", appName) == ts + FilenameSep + appName + BackupEnding
  {
  }

  lemma NameWithPrefix(ts: string, filePrefix: string, appName: string)
    requires filePrefix != ""
    ensures ts + NameTail(filePrefix, appName) == ts + FilenameSep + filePrefix + FilenameSep + appName + BackupEnding
  {
  }

  /** The exact shape of the name: timestamp and separator first, then
      `prefix_` only for a non-empty prefix, then appName, and always the
      fixed `_backup.tar.gz` ending. This spells out ArchiveFilename's
      definition case by case, for documentation; the statements independent
      of the definition are ArchiveFilenameIsJoin (against the reference
      Join) and ArchiveFilenameRoundTrip (against the parser). */
  lemma ArchiveFilenameShape(now: Timestamp, filePrefix: string, appName: string)
    ensures var ts, name := FormatTimestamp(now), ArchiveFilename(now, filePrefix, appName);
            && |ts| < |name| && name[..|ts| + 1] == ts + FilenameSep
            && EndsWith(name, BackupEnding)
            && (filePrefix == "" ==> name == ts + FilenameSep + appName + BackupEnding)
            && (filePrefix != "" ==> name == ts + FilenameSep + filePrefix + FilenameSep + appName + BackupEnding)
  {
    var ts := FormatTimestamp(now);
    NameStart(ts, filePrefix, appName);
    NameEnding(ts, filePrefix, appName);
    if filePrefix == "" {
      NameWithoutPrefix(ts, appName);
    } else {
      NameWithPrefix(ts, filePrefix, appName);
    }
  }

  // ---------------------------------------------------------------------------
  // Segment structure

  /** Segments joined by `sep`, a reference definition independent of the
      buffer-building code. */
  function Join(segments: seq<string>, sep: string): string
    decreases |segments|
  {
    if |segments| == 0 then ""
    else if |segments| == 1 then segments[0]
    else segments[0] + sep + Join(segments[1..], sep)
  }

  /** The name's segments, given the timestamp text `ts`: the timestamp, the
      prefix when non-empty, appName, "backup". */
  function Segments(ts: string, filePrefix: string, appName: string): seq<string> {
    [ts] + (if filePrefix == "" then [] else [filePrefix]) + [appName, FilenameSuffix]
  }

  /** The last two segments, joined, then the extension. */
  lemma {:induction false} JoinLastTwo(appName: string)
    ensures Join([appName, FilenameSuffix], FilenameSep) + FileExtension == appName + BackupEnding
  {
    assert [appName, FilenameSuffix][1..] == [FilenameSuffix];
    assert Join([appName, FilenameSuffix], FilenameSep) == appName + FilenameSep + FilenameSuffix;
  }

  /** Putting one more segment in front adds it and one separator. */
  lemma {:induction false} JoinCons(first: string, rest: seq<string>)
    requires 0 < |rest|
    ensures Join([first] + rest, FilenameSep) == first + FilenameSep + Join(rest, FilenameSep)
  {
    assert ([first] + rest)[0] == first;
    assert ([first] + rest)[1..] == rest;
  }

  lemma {:induction false} JoinWithoutPrefix(ts: string, appName: string)
    ensures ts + NameTail("", appName) == Join([ts] + [appName, FilenameSuffix], FilenameSep) + FileExtension
  {
    var last := [appName, FilenameSuffix];
    JoinLastTwo(appName);
    NameWithoutPrefix(ts, appName);
    JoinCons(ts, last);
    var x := ts + FilenameSep;
    assert (x + Join(last, FilenameSep)) + FileExtension == x + (Join(last, FilenameSep) + FileExtension);
    assert x + (appName + BackupEnding) == x + appName + BackupEnding;
  }

  /** A prefix segment goes between the timestamp's separator and the rest
      of the unprefixed tail. */
  lemma TailWithPrefix(filePrefix: string, appName: string)
    requires filePrefix != ""
    ensures NameTail(filePrefix, appName) == FilenameSep + (filePrefix + NameTail("", appName))
  {
  }

  lemma {:induction false} JoinWithPrefix(ts: string, filePrefix: string, appName: string)
    requires filePrefix != ""
    ensures ts + NameTail(filePrefix, appName)
         == Join([ts] + ([filePrefix] + [appName, FilenameSuffix]), FilenameSep) + FileExtension
  {
    var rest := [filePrefix] + [appName, FilenameSuffix];
    var j := Join(rest, FilenameSep);
    JoinWithoutPrefix(filePrefix, appName);
    TailWithPrefix(filePrefix, appName);
    JoinCons(ts, rest);
    assert ts + (FilenameSep + (j + FileExtension)) == (ts + FilenameSep + j) + FileExtension;
  }

  lemma {:induction false} JoinSegments(ts: string, filePrefix: string, appName: string)
    ensures ts + NameTail(filePrefix, appName) == Join(Segments(ts, filePrefix, appName), FilenameSep) + FileExtension
  {
    if filePrefix == "" {
      JoinWithoutPrefix(ts, appName);
    } else {
      JoinWithPrefix(ts, filePrefix, appName);
    }
  }

  /** The name is its segments joined by single separators, then the
      extension; an empty prefix contributes no segment at all, so the name
      has three segments without a prefix and four with one. */
  lemma ArchiveFilenameIsJoin(now: Timestamp, filePrefix: string, appName: string)
    ensures ArchiveFilename(now, filePrefix, appName)
         == Join(Segments(FormatTimestamp(now), filePrefix, appName), FilenameSep) + FileExtension
    ensures |Segments(FormatTimestamp(now), filePrefix, appName)| == if filePrefix == "" then 3 else 4
  {
    JoinSegments(FormatTimestamp(now), filePrefix, appName);
  }

  /** No two separators side by side. */
  predicate NoDoubleSep(s: string) {
    forall i :: 0 <= i < |s| - 1 ==> !DoubleSepAt(s, i)
  }

  predicate DoubleSepAt(s: string, i: nat)
    requires i + 1 < |s|
  {
    s[i] == '_' && s[i + 1] == '_'
  }

  /** A segment that is non-empty, neither starts nor ends with the separator,
      and holds no doubled separator. */
  predicate CleanSegment(s: string) {
    && 0 < |s|
    && s[0] != '_'
    && s[|s| - 1] != '_'
    && NoDoubleSep(s)
  }

  lemma NoSepIsClean(s: string)
    requires 0 < |s| && NoSep(s)
    ensures CleanSegment(s)
  {
    forall i | 0 <= i < |s| - 1
      ensures !DoubleSepAt(s, i)
    {
    }
  }

  /** Joining two clean segments with one separator gives a clean segment. */
  lemma {:induction false} JoinClean(a: string, b: string)
    requires CleanSegment(a) && CleanSegment(b)
    ensures CleanSegment(a + FilenameSep + b)
  {
    var s := a + FilenameSep + b;
    forall i | 0 <= i < |s| - 1
      ensures !DoubleSepAt(s, i)
    {
      if i < |a| - 1 {
        assert !DoubleSepAt(a, i);
      } else if i > |a| {
        var j := i - |a| - 1;
        assert !DoubleSepAt(b, j);
      }
    }
  }

  lemma NoSepConcat(a: string, b: string)
    requires NoSep(a) && NoSep(b)
    ensures NoSep(a + b)
  {
    forall i | 0 <= i < |a + b|
      ensures (a + b)[i] != '_'
    {
      if i >= |a| {
        assert (a + b)[i] == b[i - |a|];
      }
    }
  }

  lemma {:induction false} CleanParts(y: string, mo: string, d: string, hm: string, sec: string)
    requires 0 < |y| && 0 < |mo| && 0 < |d| && 0 < |hm| && 0 < |sec|
    requires NoSep(y) && NoSep(mo) && NoSep(d) && NoSep(hm) && NoSep(sec)
    ensures CleanSegment(y + FilenameSep + mo + FilenameSep + d + FilenameSep + hm + FilenameSep + sec)
  {
    NoSepIsClean(y);
    NoSepIsClean(mo);
    NoSepIsClean(d);
    NoSepIsClean(hm);
    NoSepIsClean(sec);
    JoinClean(y, mo);
    JoinClean(y + FilenameSep + mo, d);
    JoinClean(y + FilenameSep + mo + FilenameSep + d, hm);
    JoinClean(y + FilenameSep + mo + FilenameSep + d + FilenameSep + hm, sec);
  }

  /** The timestamp text is itself a clean segment. */
  lemma TimestampClean(t: Timestamp)
    ensures CleanSegment(FormatTimestamp(t))
  {
    var y, mo, d := AppendInt(t.year, 4), AppendInt(t.month, 2), AppendInt(t.day, 2);
    var h, mi, sec := AppendInt(t.hour, 2), AppendInt(t.minute, 2), AppendInt(t.second, 2);
    AppendIntChars(t.year, 4);
    AppendIntChars(t.month, 2);
    AppendIntChars(t.day, 2);
    AppendIntChars(t.hour, 2);
    AppendIntChars(t.minute, 2);
    AppendIntChars(t.second, 2);
    NoSepConcat(h, mi);
    CleanParts(y, mo, d, h + mi, sec);
  }

  /** The fixed ending after the last separator is a clean segment. */
  lemma EndingClean()
    ensures BackupEnding == FilenameSep + (FilenameSuffix + FileExtension)
    ensures CleanSegment(FilenameSuffix + FileExtension)
  {
    NoSepIsClean(FilenameSuffix + FileExtension);
  }

  /** A clean segment followed by the fixed ending has no doubled
      separator. */
  lemma {:induction false} CleanHead(head: string)
    requires CleanSegment(head)
    ensures NoDoubleSep(head + BackupEnding)
  {
    EndingClean();
    JoinClean(head, FilenameSuffix + FileExtension);
    assert head + BackupEnding == head + FilenameSep + (FilenameSuffix + FileExtension);
  }

  lemma {:induction false} CleanNameParts(ts: string, filePrefix: string, appName: string)
    requires CleanSegment(ts) && CleanSegment(appName)
    requires filePrefix == "" || CleanSegment(filePrefix)
    ensures NoDoubleSep(ts + NameTail(filePrefix, appName))
  {
    if filePrefix == "" {
      NameWithoutPrefix(ts, appName);
      JoinClean(ts, appName);
      CleanHead(ts + FilenameSep + appName);
    } else {
      NameWithPrefix(ts, filePrefix, appName);
      JoinClean(ts, filePrefix);
      JoinClean(ts + FilenameSep + filePrefix, appName);
      CleanHead(ts + FilenameSep + filePrefix + FilenameSep + appName);
    }
  }

  /** With a clean appName (and a clean prefix when one is given), the name
      has no empty segment: no doubled separator anywhere, and in particular
      none where an empty prefix would have gone. */
  lemma ArchiveFilenameNoDoubleSep(now: Timestamp, filePrefix: string, appName: string)
    requires CleanSegment(appName)
    requires filePrefix == "" || CleanSegment(filePrefix)
    ensures NoDoubleSep(ArchiveFilename(now, filePrefix, appName))
  {
    TimestampClean(now);
    CleanNameParts(FormatTimestamp(now), filePrefix, appName);
  }
}

=== FILE: pipeline.dfy ===
/** The stage order of one backup run (main).

    Every outside effect is an input: the decoded configuration (or its
    decoding failure), path existence, the clock reading, whether the storage
    client can be created, the archive file's reader, the bucket writer, and
    the outcomes of opening the archive, re-opening the uploaded object,
    deleting the local file and closing the local file. A fatal log line
    becomes a Fatal or Invalid exit naming where the run stopped. */
module Pipeline {

  import opened Wrappers
  import Naming
  import Config
  import Chunks

  datatype Stage =
    | LoadConfig      // envconfig.Process
    | Validate        // validateEnvConfig
    | Name            // archiveFilename
    | Connect         // bucketObject: storage.NewClient
    | Archive         // archiver.TarGz.Make
    | Open            // os.Open of the archive
    | Upload          // writeChunks
    | Verify          // verifyFileInBucket
    | RemoveLocal     // removeLocalFile
    | CloseLocal      // the deferred fi.Close

  /** The order in which main runs its stages. */
  const RunOrder: seq<Stage> :=
    [LoadConfig, Validate, Name, Connect, Archive, Open, Upload, Verify, RemoveLocal, CloseLocal]

  /** Where `s` sits in RunOrder. */
  function Position(s: Stage): (i: nat)
    ensures i < |RunOrder| && RunOrder[i] == s
  {
    match s
    case LoadConfig => 0
    case Validate => 1
    case Name => 2
    case Connect => 3
    case Archive => 4
    case Open => 5
    case Upload => 6
    case Verify => 7
    case RemoveLocal => 8
    case CloseLocal => 9
  }

  /** Stage `s` was entered in a run that entered the first `entered` stages
      of RunOrder. */
  predicate Reached(entered: nat, s: Stage) {
    Position(s) < entered
  }

  datatype Env = Env(
    config: Option<Config.Specification>,   // None: the environment could not be decoded
    pathExists: string -> bool,
    now: Naming.Timestamp,
    clientOk: bool,
    archiveOk: bool,                         // the archiver's own verdict, which main never reads
    openOk: bool,
    archive: Chunks.Reader,                  // the local archive file as read back
    bucket: Chunks.Writer,
    verifyOk: bool,
    removeOk: bool,
    closeOk: bool)

  /** Whether stage `s` succeeds in `env`, for the stages whose outcome is an
      input. Naming, archiving (its verdict is never consulted) and removal
      (its outcome is only logged) cannot fail the run; the upload's outcome
      comes from the copy, not from a single input. */
  predicate StageOk(env: Env, s: Stage) {
    match s
    case LoadConfig => env.config.Some?
    case Validate => env.config.Some? && Config.ValidateEnvConfig(env.config.value, env.pathExists).None?
    case Connect => env.clientOk
    case Open => env.openOk
    case Verify => env.verifyOk
    case CloseLocal => env.closeOk
    case _ => true
  }

  /** Every stage from position `lo` up to, but not including, position `hi`
      of RunOrder succeeds in `env`. */
  predicate OkBetween(env: Env, lo: nat, hi: int) {
    forall s :: lo <= Position(s) < hi ==> StageOk(env, s)
  }

  lemma OkBetweenJoin(env: Env, lo: nat, mid: nat, hi: int)
    requires OkBetween(env, lo, mid) && OkBetween(env, mid, hi)
    ensures OkBetween(env, lo, hi)
  {
  }

  datatype Exit =
    | Done(name: string, removed: bool)
    | Invalid(error: Config.ConfigError)
    | Fatal(stage: Stage)

  /** Result of the stages before the upload: stop with an exit after
      `entered` stages, or go on with the archive name. */
  datatype Prepared = Stop(exit: Exit, entered: nat) | Ready(name: string)

  /** The stages from decoding the configuration to opening the archive.
      The run goes on exactly when the configuration decodes and validates,
      the storage client is created and the archive opens; the archiver's
      own verdict plays no part. */
  method Prepare(env: Env) returns (p: Prepared)
    ensures p.Stop? ==> 0 < p.entered <= Position(Open) + 1
    ensures p.Stop? && p.exit.Fatal? ==> !StageOk(env, p.exit.stage)
    ensures !StageOk(env, LoadConfig) ==> p == Stop(Fatal(LoadConfig), Position(LoadConfig) + 1)
    ensures StageOk(env, LoadConfig) && !StageOk(env, Validate) ==> p.Stop? && p.exit.Invalid?
    ensures StageOk(env, Validate) && !StageOk(env, Connect) ==> p == Stop(Fatal(Connect), Position(Connect) + 1)
    ensures StageOk(env, Validate) && StageOk(env, Connect) && !StageOk(env, Open) ==>
              p == Stop(Fatal(Open), Position(Open) + 1)
    ensures p.Stop? ==> OkBetween(env, 0, p.entered - 1)
    ensures p.Ready? ==> OkBetween(env, 0, Position(Upload))
    ensures p.Stop? && p.exit.Fatal? ==> Position(p.exit.stage) == p.entered - 1
    ensures p.Stop? ==> p.exit.Invalid? || (p.exit.Fatal? && p.exit.stage in {LoadConfig, Connect, Open})
    ensures (p.Stop? && p.exit.Invalid?) <==>
              env.config.Some? && Config.ValidateEnvConfig(env.config.value, env.pathExists).Some?
    ensures p.Stop? && p.exit.Invalid? ==>
              && p.entered == Position(Validate) + 1
              && p.exit.error == Config.ValidateEnvConfig(env.config.value, env.pathExists).value
    ensures p.Ready? <==>
              && env.config.Some? && Config.ValidateEnvConfig(env.config.value, env.pathExists).None?
              && env.clientOk && env.openOk
    ensures p.Ready? ==> p.name == Naming.ArchiveFilename(env.now, env.config.value.filePrefix, env.config.value.appName)
  {
    if env.config.None? {
      return Stop(Fatal(LoadConfig), 1);
    }
    var err := Config.ValidateEnvConfig(env.config.value, env.pathExists);
    if err.Some? {
      return Stop(Invalid(err.value), 2);
    }
    var name := Naming.ArchiveFilename(env.now, env.config.value.filePrefix, env.config.value.appName);
    if !env.clientOk {
      return Stop(Fatal(Connect), 4);
    }
    // the archiver's error is overwritten by the open below and never checked
    if !env.openOk {
      return Stop(Fatal(Open), 6);
    }
    return Ready(name);
  }

  /** The stages from the upload's outcome to the deferred close, for the
      archive `name`: a failed upload stops the run before verification; a
      failed verification stops it before removal; once removal ran, only the
      close of the local file decides the exit, and the removal's outcome is
      merely reported. */
  function Conclude(env: Env, name: string, upload: Chunks.Outcome): (r: (Exit, nat))
    ensures Position(Upload) < r.1 <= |RunOrder|
    ensures r.0.Fatal? ==> Position(r.0.stage) == r.1 - 1 && r.0.stage in {Upload, Verify, CloseLocal}
    ensures !r.0.Invalid?
    ensures r.0.Fatal? && r.0.stage != Upload ==> !StageOk(env, r.0.stage)
    ensures OkBetween(env, Position(Upload), r.1 - 1)
    ensures Reached(r.1, Verify) <==> upload.Completed?
    ensures Reached(r.1, RemoveLocal) <==> upload.Completed? && env.verifyOk
    ensures Reached(r.1, RemoveLocal) ==> (r.0.Done? <==> env.closeOk)
    ensures r.0.Done? ==> r.1 == |RunOrder| && r.0 == Done(name, env.removeOk)
  {
    if upload.Aborted? then (Fatal(Upload), 7)
    else if !env.verifyOk then (Fatal(Verify), 8)
    // the removal's outcome is only logged
    else if !env.closeOk then (Fatal(CloseLocal), 10)
    else (Done(name, env.removeOk), 10)
  }

  /** What the upload stage leaves behind in a run that entered `entered`
      stages: the upload's outcome is there exactly when the stage was
      reached, and then the sink is what writeChunks left for the archive
      reader and the bucket writer, and verification is reached exactly when
      that upload completed; a run that stops earlier leaves the sink
      untouched. */
  ghost predicate UploadStage(env: Env, entered: nat, sink: Chunks.Sink, upload: Option<Chunks.Outcome>) {
    && (upload.Some? <==> Reached(entered, Upload))
    && (!Reached(entered, Upload) ==> sink == Chunks.Sink([], 0, 0))
    && (upload.Some? ==> Chunks.Uploaded(env.archive, env.bucket, sink, upload.value))
    && (upload.Some? ==> (Reached(entered, Verify) <==> upload.value.Completed?))
  }

  /** One run of main. The run enters the first `entered` stages of RunOrder,
      one after the other, and stops at the first fatal one; the archiver's
      failure and the removal's failure are never fatal; verification runs
      only after the upload completed: every read succeeded, including the
      final empty one, and the writer was closed once without error. Removal
      runs only after verification succeeded. */
  method Backup(env: Env) returns (exit: Exit, entered: nat, sink: Chunks.Sink, upload: Option<Chunks.Outcome>)
    ensures 0 < entered <= |RunOrder|
    ensures exit.Fatal? ==> Position(exit.stage) == entered - 1
    ensures exit.Fatal? ==> exit.stage != Name && exit.stage != Archive && exit.stage != RemoveLocal
    ensures exit.Fatal? && exit.stage != Upload ==> !StageOk(env, exit.stage)
    ensures exit.Invalid? ==> entered == Position(Validate) + 1
    ensures !StageOk(env, LoadConfig) ==> exit == Fatal(LoadConfig)
    ensures StageOk(env, LoadConfig) && !StageOk(env, Validate) ==> exit.Invalid?
    ensures StageOk(env, Validate) && !StageOk(env, Connect) ==> exit == Fatal(Connect)
    ensures StageOk(env, Validate) && StageOk(env, Connect) && !StageOk(env, Open) ==> exit == Fatal(Open)
    ensures OkBetween(env, 0, entered - 1)
    ensures exit.Invalid? <==> env.config.Some? && Config.ValidateEnvConfig(env.config.value, env.pathExists).Some?
    ensures Reached(entered, Upload) <==>
              && env.config.Some? && Config.ValidateEnvConfig(env.config.value, env.pathExists).None?
              && env.clientOk && env.openOk
    ensures UploadStage(env, entered, sink, upload)
    ensures Reached(entered, RemoveLocal) ==> env.verifyOk
    ensures Reached(entered, RemoveLocal) ==> (exit.Done? <==> env.closeOk)
    ensures exit.Done? ==>
              && entered == |RunOrder|
              && env.config.Some?
              && exit.name == Naming.ArchiveFilename(env.now, env.config.value.filePrefix, env.config.value.appName)
              && exit.removed == env.removeOk
    ensures && env.config.Some? && Config.ValidateEnvConfig(env.config.value, env.pathExists).None?
            && env.clientOk && env.openOk && env.verifyOk && env.closeOk
            && (forall k :: !env.archive.readFails(k)) && (forall k :: !env.bucket.writeFails(k))
            && !env.bucket.closeFails
            ==> exit.Done?
  {
    var prep := Prepare(env);
    if prep.Stop? {
      return prep.exit, prep.entered, Chunks.Sink([], 0, 0), None;
    }
    var out;
    sink, out := Chunks.WriteChunks(env.archive, env.bucket);
    var r := Conclude(env, prep.name, out);
    exit, entered, upload := r.0, r.1, Some(out);
    OkBetweenJoin(env, 0, Position(Upload), entered - 1);
  }
}

=== FILE: wrappers.dfy ===
/** The optional-value type shared by the other modules. */
module Wrappers {

  datatype Option<+T> = None | Some(value: T)
}
